=== FILE: README.md ===
# Smart Delivery Box admin panel — verified model of its logic

This Dafny project models the logic inside the Smart Delivery Box admin
panel, which is otherwise mostly React presentation:

- **PIN dispatch handler** (`netlify/functions/sendPin.js`). The handler writes a
  delivery PIN to a ThingSpeak channel, then optionally texts it through BulkSMS.
  `SendPin.Handle` is a pure function of four inputs: the request, the environment
  configuration, and the outcomes of the two outbound `fetch` calls. It returns the
  HTTP response together with the list of outbound calls actually made. Because of
  that list, properties such as "no outbound call", "SMS only after an accepted write"
  and "SMS never downgrades success" are ordinary postconditions.
- **Admin state store** (`src/contexts/AdminContext.tsx`). The state holds orders, the
  current PIN, the PIN history, notifications and activity logs. The model keeps it as
  an immutable `AdminState` record. `addOrder`, `updateOrder`, `deleteOrder`, `savePIN`,
  `generatePIN` and `resetPIN` are pure transitions, each stating exactly what changes
  and what stays the same.
- **Screen logic** (`src/components/OrderManagement.tsx`,
  `src/components/PINManagement.tsx`), lifted out of the components as pure functions:
  - the order search and status filter;
  - the tracking-number generator;
  - the add, edit and delete guards, which return the store call they make (`None`
    when they only show a toast);
  - the pending-order list;
  - the generate and reset handlers;
  - the five-entry PIN history panel.

Time (`Date.now()`) is a `now: nat` parameter in milliseconds. Randomness
(`Math.random()`) is an integer `draw` parameter: `Math.floor(Math.random() * 9000)`
for PIN codes and `Math.floor(Math.random() * 1000)` for tracking numbers.

Modules:

| module | file | models |
|---|---|---|
| `Options` | options.dfy | `undefined`/`null`, unset variables, missing selections |
| `Seqs` | seqs.dfy | `Array.prototype.filter` / `find`, the subsequence relation |
| `Strings` | strings.dfy | `trim`, `toLowerCase`, `includes`, `slice(-k)`, `padStart`, `Number.prototype.toString` |
| `SendPin` | send_pin.dfy | `netlify/functions/sendPin.js` |
| `AdminStore` | admin_store.dfy | `src/contexts/AdminContext.tsx` |
| `OrderManagement` | order_management.dfy | `src/components/OrderManagement.tsx` |
| `PinManagement` | pin_management.dfy | `src/components/PINManagement.tsx` |

## Handler responses in detail

These facts about `netlify/functions/sendPin.js` shape the model's response bodies.

- **502 response.** A refused write answers with `{message, details}`, where `details`
  is the raw ThingSpeak text.
- **200 response.** A dispatched PIN answers with `{success, thingspeakEntry, sms}`.
  `sms` is `null` when no SMS was requested.
- **Unparsable SMS reply.** `smsRes.json().catch(() => null)` makes the SMS body `null`
  when the reply is not JSON.
- **Phone number.** The phone value is sent to BulkSMS exactly as it arrived, with no
  rewriting to international form.
- **Throwing ThingSpeak call.** A `fetch` that throws is caught by the outer `catch`
  after the call was made. The result is a 500 with the exception's message, or
  `Server error` when that message is empty.

## Model

| member | source | states |
|---|---|---|
| `SendPin.Truthy` | netlify/functions/sendPin.js:28 | A property is truthy exactly when it is none of `undefined`, `null`, `false`, `0` and `""`. |
| `SendPin.JsToString` | netlify/functions/sendPin.js:69 | `String(v)` is empty only for the empty string. `true`, `false` and `null` render as those words. A string renders as itself, and an integer renders as its canonical decimal numeral, with `-` in front when negative. |
| `SendPin.AllowedOrigin` | netlify/functions/sendPin.js:2 | The CORS origin is `ALLOWED_ORIGIN` when it is set and non-empty. Otherwise it is `*`, and it is never empty. |
| `SendPin.Handle` | netlify/functions/sendPin.js:1-91 | Every response carries the configured origin, and its status is one of 200/400/405/500/502. `OPTIONS` gives a 200 empty-body pre-flight advertising `POST, OPTIONS`, with no call. Any other non-POST verb gives 405 with no call. A throwing body gives 500, with no call. Missing or falsy `orderId`/`pin` gives 400, checked before the key, with no call. A missing ThingSpeak key gives 500 with no call. At most two outbound calls are made. ThingSpeak is written once, first, exactly when validation passes. A throwing or refused write stops there: 500, or 502 with `details` set to the raw text. The SMS call is made exactly when the write was accepted and both phone and BulkSMS key are present. Success is 200 exactly when the write was accepted. `thingspeakEntry` is the trimmed text, and `sms` is present exactly when SMS was requested. |
| `SendPin.SmsResultOf` | netlify/functions/sendPin.js:61-75 | A throwing SMS call becomes an error record carrying `String(e)`. An answered one keeps its `ok` and status, and its body is the parsed JSON reply, or `null` when the reply is not JSON. |
| `SendPin.ErrorMessage` | netlify/functions/sendPin.js:88 | A caught error's non-empty message is returned unchanged. An empty one becomes `Server error`, so the message is never empty. |
| `SendPin.SmsNeverDowngrades` | netlify/functions/sendPin.js:57-82 | Two dispatches that differ only in the SMS outcome agree on status, calls and success. |
| `SendPin.SmsThrowStillSucceeds` | netlify/functions/sendPin.js:73-82 | After an accepted write, an SMS exception still gives 200 with `sms = {ok:false, error}`. |
| `SendPin.NoCallNoDependence` | netlify/functions/sendPin.js:5-43 | A response decided without any outbound call is the same whatever the outbound outcomes are. |
| `SendPin.MissingFieldIgnoresKeys` | netlify/functions/sendPin.js:27-43 | A POST missing a required field gets the same 400 under any key configuration. |
| `SendPin.SentinelWithWhitespaceFails` | netlify/functions/sendPin.js:48-55 | An HTTP-success reply whose body is `0` surrounded by any whitespace gives 502, with `details` set to that raw body. |
| `SendPin.EntryIsTrimmed` | netlify/functions/sendPin.js:78-82 | A successful entry is never `0` and has no edge whitespace. |
| `Strings.Trim` | netlify/functions/sendPin.js:49 | The result has no edge whitespace and is the input minus a whitespace prefix and suffix. |
| `Strings.TrimOfWrapped` | netlify/functions/sendPin.js:81 | Trimming any whitespace-wrapped string with non-blank ends returns exactly that string. |
| `Strings.TrimIdempotent` | netlify/functions/sendPin.js:81 | Trimming twice equals trimming once. |
| `Strings.NatToString` | src/contexts/AdminContext.tsx:231 | The decimal rendering is a canonical numeral (no leading zero) that reads back as the number. |
| `Strings.NatToStringOfValue` | src/contexts/AdminContext.tsx:231 | Every canonical numeral is the rendering of its value, so rendering and reading are inverse. |
| `Strings.NatToStringLength` | src/components/OrderManagement.tsx:74 | The rendering has more than k digits exactly when n >= 10^k. |
| `Strings.SuffixDigitsValue` | src/components/OrderManagement.tsx:74 | The last k digits of a digit string denote its value modulo 10^k. |
| `Strings.LeadingZerosValue` | src/components/OrderManagement.tsx:75 | Zero-padding on the left keeps a digit string's value. |
| `Strings.TakeLast` | src/components/OrderManagement.tsx:74 | For k > 0, `slice(-k)` returns the last `min(k, length)` characters as a suffix. |
| `Strings.PadStart` | src/components/OrderManagement.tsx:75 | `padStart` reaches the width, keeps the string as a suffix and fills the front. |
| `Strings.ToLower` | src/components/OrderManagement.tsx:159-161 | Lower-casing keeps the length, maps each character, and leaves no upper-case ASCII letter. |
| `Strings.Includes` | src/components/OrderManagement.tsx:159-161 | `includes` is true exactly when the query occurs at some index, and it is always true for the empty query. |
| `Seqs.Filter` | src/contexts/AdminContext.tsx:301 | A filter keeps exactly the elements satisfying the predicate, as a subsequence. It is the identity when all elements satisfy it. |
| `Seqs.FilterMultiset` | src/contexts/AdminContext.tsx:301 | A filter keeps every occurrence of a satisfying element and no occurrence of any other element, so duplicates survive it. |
| `Seqs.FilterAppend` | src/contexts/AdminContext.tsx:301 | Filtering distributes over concatenation. |
| `Seqs.FindFirst` | src/contexts/AdminContext.tsx:300 | `find` returns nothing exactly when no element matches. Otherwise it returns the first matching element. |
| `AdminStore.FindOrder` | src/contexts/AdminContext.tsx:286 | An order is found exactly when one with the id exists. The found order is the first one in the list with that id. |
| `AdminStore.ApplyPatch` | src/contexts/AdminContext.tsx:271 | In `{ ...order, ...patch }`, every property the patch carries overrides the order's, and every property it lacks keeps the order's value. |
| `AdminStore.AddOrder` | src/contexts/AdminContext.tsx:228-266 | Exactly one order is appended, with prior orders unchanged. It carries the given fields, id `Date.now()` and `createdAt = now`. One "Order Created" log and one non-critical delivery notification are prepended. The PIN state is unchanged. |
| `AdminStore.PatchOrders` | src/contexts/AdminContext.tsx:270-272 | The length is kept. Matching entries take the patch over their fields, and the others are unchanged. |
| `AdminStore.UpdateOrder` | src/contexts/AdminContext.tsx:269-297 | Length and order are kept. Only entries with the id change, with the patch fields overriding. An "Order Updated" log is prepended exactly when an order with the id exists and the patch keeps that id, because the lookup runs on the updated list. PINs and notifications are unchanged. |
| `AdminStore.RemoveOrders` | src/contexts/AdminContext.tsx:301 | Every occurrence of an order without the id remains, in order, and no order with the id remains. The list is unchanged when no order has the id. |
| `AdminStore.DeleteOrder` | src/contexts/AdminContext.tsx:299-325 | Every order with the id is removed. Every other order keeps all of its occurrences, in their order. An "Order Deleted" log is prepended exactly when such an order existed. Nothing else changes. |
| `AdminStore.SavePin` | src/contexts/AdminContext.tsx:168-208 | The current PIN becomes an unused PIN with the given code and order, expiring 24 h after issue. It is prepended to the history. One "PIN Generated" log is prepended. Orders and notifications are unchanged. |
| `AdminStore.PinCode` | src/contexts/AdminContext.tsx:113 | The code is four decimal digits without a leading zero, denoting 1000 + draw, which lies in 1000..9999. |
| `AdminStore.GeneratePin` | src/contexts/AdminContext.tsx:112-166 | It issues a four-digit PIN in 1000..9999 for the order. It becomes current and heads the history, and expiry is issue time + 24 h. One "PIN Generated" log for the order and one non-critical delivery notification are prepended. Orders are unchanged. |
| `AdminStore.ResetPin` | src/contexts/AdminContext.tsx:210-226 | Without a current PIN, the state is unchanged. Otherwise the current PIN is cleared and a "PIN Reset" log naming the old PIN's order is prepended. The history, orders and notifications are untouched. |
| `AdminStore.OrderIdEncodesTime` | src/contexts/AdminContext.tsx:231 | A new order's id is a canonical numeral that reads back as its creation time. |
| `AdminStore.AddThenDeleteRestores` | src/contexts/AdminContext.tsx:228-302 | Deleting a just-added order, whose id was fresh, restores the order list exactly. |
| `AdminStore.UpdateMissingIsNoop` | src/contexts/AdminContext.tsx:269-297 | Updating an id no order has leaves the whole state unchanged. |
| `AdminStore.UpdateIdempotent` | src/contexts/AdminContext.tsx:269-273 | Applying a patch twice gives the same orders as applying it once, whether or not the patch keeps the id. |
| `AdminStore.DeleteIdempotent` | src/contexts/AdminContext.tsx:299-325 | A second delete of the same id leaves the whole state unchanged, with no second log. |
| `AdminStore.DeleteAfterUpdate` | src/contexts/AdminContext.tsx:269-302 | Deleting an id after an id-preserving update gives the same orders as deleting directly. |
| `AdminStore.PatchThenRemove` | src/contexts/AdminContext.tsx:270-301 | Removing an id from a patched list equals removing it from the original list. |
| `AdminStore.ResetIdempotent` | src/contexts/AdminContext.tsx:210-226 | A second reset is a no-op. |
| `AdminStore.SaveThenReset` | src/contexts/AdminContext.tsx:168-226 | Resetting after saving clears the current PIN, keeps the saved PIN at the head of the history, and logs the reset for its order. |
| `AdminStore.GenerateIsSavePlusNotification` | src/contexts/AdminContext.tsx:112-208 | `generatePIN` behaves as `savePIN` with the drawn code, plus exactly one notification. |
| `OrderManagement.FilteredOrders` | src/components/OrderManagement.tsx:157-166 | An order is kept, with all of its occurrences, exactly when the lower-cased query occurs in its lower-cased name, description or id and the status filter is `all` or its status. The result is a subsequence of the orders. An empty query with `all` returns every order. |
| `OrderManagement.SearchIgnoresQueryCase` | src/components/OrderManagement.tsx:159-161 | Matching is the same for a query and its lower-cased form. |
| `OrderManagement.SearchFindsOwnId` | src/components/OrderManagement.tsx:161 | Searching for an order's own id matches it. |
| `OrderManagement.StampDigits` | src/components/OrderManagement.tsx:74 | The 8-character timestamp slice denotes the time modulo 10^8. It has all 8 digits exactly from 10^7 ms on. |
| `OrderManagement.PaddedDraw` | src/components/OrderManagement.tsx:75 | The padded random part has three digits denoting the draw. |
| `OrderManagement.TrackingNumber` | src/components/OrderManagement.tsx:72-77 | The result is `TRK` followed by digits only. The middle denotes the time modulo 10^8, and the last three digits denote the draw. The length is at most 14, and exactly 14 iff the timestamp has at least 8 digits. |
| `OrderManagement.HandleAddOrder` | src/components/OrderManagement.tsx:79-95 | No `addOrder` call happens exactly when the name or description is empty. Otherwise the call carries the form's fields and a non-empty tracking number: the form's own if non-empty, else exactly `TrackingNumber(now, draw)`, the generated `TRK…` number. |
| `OrderManagement.FormPatch` | src/components/OrderManagement.tsx:116 | The edit patch carries all six form fields: name, phone, e-mail, description, tracking number and status. It never sets the id or the creation time. |
| `OrderManagement.HandleEditOrder` | src/components/OrderManagement.tsx:104-116 | No call happens exactly when nothing is selected or a required field is empty. Otherwise the call is `updateOrder(selectedOrder.id, formData)`. |
| `OrderManagement.HandleDeleteOrder` | src/components/OrderManagement.tsx:126-129 | No call happens exactly when nothing is selected. Otherwise the call is `deleteOrder(selectedOrder.id)`. |
| `OrderManagement.AddedOrderIsTracked` | src/components/OrderManagement.tsx:79-101 | A submitted add appends one order with the form's name and a non-empty tracking number, keeping earlier orders. |
| `OrderManagement.EditRewritesSelected` | src/components/OrderManagement.tsx:104-116 | A submitted edit gives every order with the selected id the form's name, phone, e-mail, description, tracking number and status, keeping its id and creation time. Other orders are untouched. A log is added exactly when the id is present. |
| `OrderManagement.DeleteRemovesSelected` | src/components/OrderManagement.tsx:126-129 | A confirmed delete leaves no order with the selected id. Every other order keeps all of its occurrences, in order. |
| `PinManagement.PendingOrders` | src/components/PINManagement.tsx:19 | Every occurrence of a pending or assigned order is kept, in the original order, and nothing else. A delivered order is never kept. |
| `PinManagement.PendingAfterAddOrder` | src/components/PINManagement.tsx:19 | After `addOrder`, the pending list is the earlier pending list, followed by the new order exactly when it was created pending or assigned. |
| `PinManagement.HandleGeneratePin` | src/components/PINManagement.tsx:21-31 | Without a selection, the state is unchanged. Otherwise there is exactly one `generatePIN` for the selected id: one current PIN for that order, one history entry, one log and one notification. Orders are unchanged. |
| `PinManagement.HandleResetPin` | src/components/PINManagement.tsx:39-41 | Reset is a no-op without a current PIN and otherwise leaves no current PIN. The history is kept. |
| `PinManagement.HistoryView` | src/components/PINManagement.tsx:149 | The panel shows the first `min(5, n)` PINs of the history. |
| `PinManagement.GeneratedPinHeadsHistory` | src/components/PINManagement.tsx:149 | After generating, the panel shows the new PIN first, followed by the previously shown PINs, shifted by one. |

## Left out

- **Network calls.** The `fetch` calls to ThingSpeak and BulkSMS are inputs to the model
  (`ThingSpeakOutcome`, `SmsOutcome`). The model does not build the ThingSpeak URL or its
  `encodeURIComponent` encoding. It does not serialise the SMS request body either. A
  call records the key, PIN, phone and message values that would be encoded.
- **JSON.** `JSON.parse` and `JSON.stringify` are not modelled. The parsed request body
  is an input (`RequestBody`), and response bodies are datatypes rather than strings. A
  JSON `null` body, whose destructuring throws, is folded into `BodyThrows`.
- **JavaScript values.** Numbers in the request body are integers only. Floats and `NaN`
  are out, since they need floating point. Arrays and objects are one opaque truthy
  value, so `String(array)` is not distinguished from `[object Object]`.
- SendPin.JsToString: integers are unbounded and always render in full decimal. In
  JavaScript, `JSON.parse` rounds integers beyond 2^53 to the nearest double, and
  `String` renders numbers of 10^21 and above in exponent form (`1e+21`). For such a
  `pin`, the SMS message text in `SendPin.Handle` differs from the code's, because
  double-precision arithmetic is not modelled.
- SendPin.Handle: a JSON object or array is one opaque value, so its `toString` is not
  modelled. In the code, a `pin` object with an own `toString` property makes
  `encodeURIComponent` throw a `TypeError` before the ThingSpeak call: JSON cannot make
  that property callable, and the inherited `valueOf` returns the object itself, so no
  primitive is found. The same holds for an array containing such an object. The outer
  `catch` then answers 500 with that error's message, and no outbound call is made. The
  model instead records the ThingSpeak write for such a `pin`.
- SendPin.Handle: a string here is a sequence of Unicode scalar values, so it cannot
  hold a lone surrogate. In the code, a `pin` or ThingSpeak key holding one makes
  `encodeURIComponent` throw a `URIError` before the ThingSpeak call, which gives a 500
  with no outbound call. That path is not modelled.
- **Console logging.** `console.error` in the handler and the store is I/O.
- **Local storage.** `loadOrders`, the `localStorage` writes, and the swallowed storage
  errors are I/O and do not affect the in-memory state. The fixed demo orders,
  notifications and logs that seed the initial state are not modelled. Their timestamps
  are local-time dates.
- **React.** `useState` closure staleness and update batching concern React scheduling.
  The model applies each transition to the current state.
- **Timestamps.** One `now` reading stands for every `new Date()`/`Date.now()` a
  transition makes. `setHours(+24)` is modelled as exactly 86 400 000 ms, without
  daylight-saving shifts.
- **Lower-casing.** `toLowerCase` is modelled for ASCII letters only. Full Unicode case
  mapping is not modelled.
- **Explicit `undefined` in a patch.** A patch property explicitly set to `undefined`
  (`{customerPhone: undefined}`) is not represented. The only caller, the edit dialog,
  sends strings.
- **Presentation.** Toasts, dialogs, `resetForm`, `openEditDialog`, status colour
  classes, and the disabled state of buttons are presentation. So are the dashboard,
  notification, activity-log, navigation, locker and index screens, and the dev-proxy
  configuration.
- **Repeated dispatches.** Two dispatches are never deduplicated; each call of
  `SendPin.Handle` makes its own ThingSpeak write. The pure model has no cross-request
  state, so this needs no further statement.

=== FILE: admin_store.dfy ===
/** The admin panel's client-side state store (`src/contexts/AdminContext.tsx`)
    as an immutable record and pure transitions. `now` stands for the clock
    (`Date.now()`, milliseconds); one reading serves every timestamp a
    transition takes. Local-storage persistence is not modelled. */
module AdminStore {
  import opened Options
  import opened Strings
  import opened Seqs

  datatype Status = Pending | Assigned | Delivered

  /** The string value of a status, as the components compare it. */
  function StatusName(s: Status): string {
    match s
    case Pending => "pending"
    case Assigned => "assigned"
    case Delivered => "delivered"
  }

  datatype Order = Order(
    id: string,
    customerName: string,
    customerPhone: Option<string>,
    customerEmail: Option<string>,
    description: string,
    trackingNumber: Option<string>,
    status: Status,
    createdAt: Option<nat>)

  /** The argument of `addOrder`: an order without `id` and `createdAt`. */
  datatype OrderData = OrderData(
    customerName: string,
    customerPhone: Option<string>,
    customerEmail: Option<string>,
    description: string,
    trackingNumber: Option<string>,
    status: Status)

  /** The argument of `updateOrder` (`Partial<Order>`): `Some` for each
      property present in the patch. */
  datatype OrderPatch = OrderPatch(
    id: Option<string>,
    customerName: Option<string>,
    customerPhone: Option<string>,
    customerEmail: Option<string>,
    description: Option<string>,
    trackingNumber: Option<string>,
    status: Option<Status>,
    createdAt: Option<nat>)

  datatype Pin = Pin(code: string, orderId: string, expiryTime: nat, used: bool, generatedAt: nat)

  datatype NotificationKind = Delivery | Tamper | PinFailure

  datatype Notification = Notification(id: string, kind: NotificationKind, message: string, timestamp: nat, critical: bool)

  datatype ActivityLog = ActivityLog(id: string, action: string, orderId: Option<string>, timestamp: nat, details: string)

  datatype AdminState = AdminState(
    orders: seq<Order>,
    currentPin: Option<Pin>,
    pinHistory: seq<Pin>,
    notifications: seq<Notification>,
    activityLogs: seq<ActivityLog>)

  /** A PIN stays valid for 24 hours after it is issued. */
  const PinLifetimeMs: nat := 24 * 60 * 60 * 1000

  /** Ids of new orders, logs and notifications: `Date.now().toString()`. */
  function IdAt(now: nat): string {
    NatToString(now)
  }

  predicate HasOrder(orders: seq<Order>, orderId: string) {
    exists i :: 0 <= i < |orders| && orders[i].id == orderId
  }

  /** `orders.find(o => o.id === orderId)`. */
  function FindOrder(orders: seq<Order>, orderId: string): (r: Option<Order>)
    ensures r.Some? <==> HasOrder(orders, orderId)
    ensures r.Some? ==> exists i :: 0 <= i < |orders| && orders[i] == r.value && orders[i].id == orderId
                                    && forall j :: 0 <= j < i ==> orders[j].id != orderId
  {
    FindFirst(orders, (o: Order) => o.id == orderId)
  }

  /** `{ ...order, ...patch }`: every property the patch carries overrides
      the order's, every property it lacks is kept. */
  function ApplyPatch(o: Order, p: OrderPatch): (r: Order)
    ensures p.id.Some? ==> r.id == p.id.value
    ensures p.id.None? ==> r.id == o.id
    ensures p.customerName.Some? ==> r.customerName == p.customerName.value
    ensures p.customerName.None? ==> r.customerName == o.customerName
    ensures p.customerPhone.Some? ==> r.customerPhone == p.customerPhone
    ensures p.customerPhone.None? ==> r.customerPhone == o.customerPhone
    ensures p.customerEmail.Some? ==> r.customerEmail == p.customerEmail
    ensures p.customerEmail.None? ==> r.customerEmail == o.customerEmail
    ensures p.description.Some? ==> r.description == p.description.value
    ensures p.description.None? ==> r.description == o.description
    ensures p.trackingNumber.Some? ==> r.trackingNumber == p.trackingNumber
    ensures p.trackingNumber.None? ==> r.trackingNumber == o.trackingNumber
    ensures p.status.Some? ==> r.status == p.status.value
    ensures p.status.None? ==> r.status == o.status
    ensures p.createdAt.Some? ==> r.createdAt == p.createdAt
    ensures p.createdAt.None? ==> r.createdAt == o.createdAt
  {
    Order(
      p.id.ValueOr(o.id),
      p.customerName.ValueOr(o.customerName),
      if p.customerPhone.Some? then p.customerPhone else o.customerPhone,
      if p.customerEmail.Some? then p.customerEmail else o.customerEmail,
      p.description.ValueOr(o.description),
      if p.trackingNumber.Some? then p.trackingNumber else o.trackingNumber,
      p.status.ValueOr(o.status),
      if p.createdAt.Some? then p.createdAt else o.createdAt)
  }

  /** The patch leaves an order's id as `orderId`. */
  predicate KeepsId(p: OrderPatch, orderId: string) {
    p.id.None? || p.id.value == orderId
  }

  /** The order `addOrder` builds. */
  function NewOrder(data: OrderData, now: nat): Order {
    Order(IdAt(now), data.customerName, data.customerPhone, data.customerEmail,
          data.description, data.trackingNumber, data.status, Some(now))
  }

  function Log(action: string, orderId: string, now: nat, details: string): ActivityLog {
    ActivityLog(IdAt(now), action, Some(orderId), now, details)
  }

  /** `addOrder`: one new order at the end, one "Order Created" log and one
      non-critical delivery notification at the front; nothing else moves. */
  function AddOrder(s: AdminState, data: OrderData, now: nat): (r: AdminState)
    ensures |r.orders| == |s.orders| + 1 && r.orders[..|s.orders|] == s.orders
    ensures var o := r.orders[|s.orders|];
            && o.id == IdAt(now) && o.createdAt == Some(now)
            && o.customerName == data.customerName && o.customerPhone == data.customerPhone
            && o.customerEmail == data.customerEmail && o.description == data.description
            && o.trackingNumber == data.trackingNumber && o.status == data.status
    ensures |r.activityLogs| == |s.activityLogs| + 1 && r.activityLogs[1..] == s.activityLogs
    ensures r.activityLogs[0].action == "Order Created" && r.activityLogs[0].orderId == Some(IdAt(now))
    ensures |r.notifications| == |s.notifications| + 1 && r.notifications[1..] == s.notifications
    ensures r.notifications[0].kind == Delivery && !r.notifications[0].critical
    ensures r.currentPin == s.currentPin && r.pinHistory == s.pinHistory
  {
    var o := NewOrder(data, now);
    var log := Log("Order Created", o.id, now,
                   "Order #" + o.id + " created for " + o.customerName + " - " + o.description);
    var note := Notification(IdAt(now), Delivery, "New order created for " + o.customerName, now, false);
    s.(orders := s.orders + [o],
       activityLogs := [log] + s.activityLogs,
       notifications := [note] + s.notifications)
  }

  /** `orders.map(o => o.id === orderId ? { ...o, ...patch } : o)`. */
  function PatchOrders(orders: seq<Order>, orderId: string, p: OrderPatch): (r: seq<Order>)
    ensures |r| == |orders|
    ensures forall i :: 0 <= i < |orders| && orders[i].id != orderId ==> r[i] == orders[i]
    ensures forall i :: 0 <= i < |orders| && orders[i].id == orderId ==> r[i] == ApplyPatch(orders[i], p)
  {
    seq(|orders|, i requires 0 <= i < |orders| =>
      if orders[i].id == orderId then ApplyPatch(orders[i], p) else orders[i])
  }

  /** `updateOrder`: the list keeps its length and order, exactly the
      entries with the id take the patch, and an "Order Updated" log is
      added when the UPDATED list still holds an order with that id. */
  function UpdateOrder(s: AdminState, orderId: string, p: OrderPatch, now: nat): (r: AdminState)
    ensures |r.orders| == |s.orders|
    ensures forall i :: 0 <= i < |s.orders| && s.orders[i].id != orderId ==> r.orders[i] == s.orders[i]
    ensures forall i :: 0 <= i < |s.orders| && s.orders[i].id == orderId ==> r.orders[i] == ApplyPatch(s.orders[i], p)
    ensures r.activityLogs != s.activityLogs <==> HasOrder(s.orders, orderId) && KeepsId(p, orderId)
    ensures r.activityLogs != s.activityLogs ==>
              && |r.activityLogs| == |s.activityLogs| + 1 && r.activityLogs[1..] == s.activityLogs
              && r.activityLogs[0].action == "Order Updated" && r.activityLogs[0].orderId == Some(orderId)
    ensures r.currentPin == s.currentPin && r.pinHistory == s.pinHistory && r.notifications == s.notifications
  {
    var updated := PatchOrders(s.orders, orderId, p);
    var found := FindOrder(updated, orderId);
    if found.Some? then
      var i :| 0 <= i < |updated| && updated[i].id == orderId;
      assert s.orders[i].id == orderId;
      var o := found.value;
      var log := Log("Order Updated", o.id, now, "Order #" + o.id + " updated for " + o.customerName);
      assert [log] + s.activityLogs != s.activityLogs by {
        assert |[log] + s.activityLogs| != |s.activityLogs|;
      }
      s.(orders := updated, activityLogs := [log] + s.activityLogs)
    else
      s.(orders := updated)
  }

  /** `orders.filter(o => o.id !== orderId)`. */
  function RemoveOrders(orders: seq<Order>, orderId: string): (r: seq<Order>)
    ensures forall o :: o in r <==> o in orders && o.id != orderId
    ensures forall o :: multiset(r)[o] == if o.id != orderId then multiset(orders)[o] else 0
    ensures IsSubseq(r, orders)
    ensures !HasOrder(orders, orderId) ==> r == orders
  {
    FilterMultiset(orders, (o: Order) => o.id != orderId);
    Filter(orders, (o: Order) => o.id != orderId)
  }

  /** `deleteOrder`: every order with the id goes, the rest keep their
      order, and an "Order Deleted" log is added when one existed. */
  function DeleteOrder(s: AdminState, orderId: string, now: nat): (r: AdminState)
    ensures forall o :: o in r.orders <==> o in s.orders && o.id != orderId
    ensures forall o :: multiset(r.orders)[o] == if o.id != orderId then multiset(s.orders)[o] else 0
    ensures IsSubseq(r.orders, s.orders)
    ensures r.activityLogs != s.activityLogs <==> HasOrder(s.orders, orderId)
    ensures r.activityLogs != s.activityLogs ==>
              && |r.activityLogs| == |s.activityLogs| + 1 && r.activityLogs[1..] == s.activityLogs
              && r.activityLogs[0].action == "Order Deleted" && r.activityLogs[0].orderId == Some(orderId)
    ensures r.currentPin == s.currentPin && r.pinHistory == s.pinHistory && r.notifications == s.notifications
  {
    var found := FindOrder(s.orders, orderId);
    var remaining := RemoveOrders(s.orders, orderId);
    if found.Some? then
      var log := Log("Order Deleted", orderId, now,
                     "Order #" + orderId + " for " + found.value.customerName + " was deleted");
      assert |[log] + s.activityLogs| != |s.activityLogs|;
      s.(orders := remaining, activityLogs := [log] + s.activityLogs)
    else
      s.(orders := remaining)
  }

  /** The PIN `savePIN` and `generatePIN` issue. */
  function IssuePin(orderId: string, code: string, now: nat): Pin {
    Pin(code, orderId, now + PinLifetimeMs, false, now)
  }

  /** `savePIN`: the new unused PIN becomes current and heads the history,
      expiring 24 hours after issue; one "PIN Generated" log is added. */
  function SavePin(s: AdminState, orderId: string, code: string, now: nat): (r: (AdminState, Pin))
    ensures var (st, pin) := r;
            && pin.code == code && pin.orderId == orderId && !pin.used
            && pin.generatedAt == now && pin.expiryTime == pin.generatedAt + PinLifetimeMs
            && st.currentPin == Some(pin)
            && st.pinHistory == [pin] + s.pinHistory
            && |st.activityLogs| == |s.activityLogs| + 1 && st.activityLogs[1..] == s.activityLogs
            && st.activityLogs[0].action == "PIN Generated" && st.activityLogs[0].orderId == Some(orderId)
            && st.orders == s.orders && st.notifications == s.notifications
  {
    var pin := IssuePin(orderId, code, now);
    var log := Log("PIN Generated", orderId, now, "PIN " + code + " generated for Order #" + orderId);
    (s.(currentPin := Some(pin), pinHistory := [pin] + s.pinHistory, activityLogs := [log] + s.activityLogs), pin)
  }

  /** The code `generatePIN` draws: `Math.floor(1000 + Math.random() * 9000)`
      rendered in decimal, where `draw` is `Math.floor(Math.random() * 9000)`. */
  function PinCode(draw: nat): (code: string)
    requires draw < 9000
    ensures |code| == 4 && AllDigits(code) && code[0] != '0'
    ensures 1000 <= DigitsValue(code) <= 9999 && DigitsValue(code) == 1000 + draw
  {
    var code := NatToString(1000 + draw);
    NatToStringLength(1000 + draw, 3);
    NatToStringLength(1000 + draw, 4);
    code
  }

  /** `generatePIN`: `savePIN` with a random four-digit code, plus one
      non-critical delivery notification announcing the SMS. */
  function GeneratePin(s: AdminState, orderId: string, draw: nat, now: nat): (r: (AdminState, Pin))
    requires draw < 9000
    ensures var (st, pin) := r;
            && |pin.code| == 4 && AllDigits(pin.code) && 1000 <= DigitsValue(pin.code) <= 9999
            && pin.orderId == orderId && !pin.used && pin.expiryTime == pin.generatedAt + PinLifetimeMs
            && st.currentPin == Some(pin) && st.pinHistory == [pin] + s.pinHistory
            && |st.activityLogs| == |s.activityLogs| + 1 && st.activityLogs[1..] == s.activityLogs
            && st.activityLogs[0].action == "PIN Generated" && st.activityLogs[0].orderId == Some(orderId)
            && |st.notifications| == |s.notifications| + 1 && st.notifications[1..] == s.notifications
            && st.notifications[0].kind == Delivery && !st.notifications[0].critical
            && st.orders == s.orders
  {
    var code := PinCode(draw);
    var (st, pin) := SavePin(s, orderId, code, now);
    var note := Notification(IdAt(now), Delivery, "SMS sent: PIN " + code + " for Order #" + orderId, now, false);
    (st.(notifications := [note] + st.notifications), pin)
  }

  /** `resetPIN`: a no-op without a current PIN; otherwise the PIN is
      cleared, the history kept, and a "PIN Reset" log names its order. */
  function ResetPin(s: AdminState, now: nat): (r: AdminState)
    ensures s.currentPin.None? ==> r == s
    ensures r.currentPin.None?
    ensures r.pinHistory == s.pinHistory && r.orders == s.orders && r.notifications == s.notifications
    ensures s.currentPin.Some? ==>
              && |r.activityLogs| == |s.activityLogs| + 1 && r.activityLogs[1..] == s.activityLogs
              && r.activityLogs[0].action == "PIN Reset"
              && r.activityLogs[0].orderId == Some(s.currentPin.value.orderId)
  {
    match s.currentPin
    case None => s
    case Some(pin) =>
      var log := Log("PIN Reset", pin.orderId, now, "PIN reset for Order #" + pin.orderId);
      s.(currentPin := None, activityLogs := [log] + s.activityLogs)
  }

  // ---------------------------------------------------------------------
  // Properties relating transitions

  /** An order id is the creation timestamp read back. */
  lemma OrderIdEncodesTime(s: AdminState, data: OrderData, now: nat)
    ensures var o := AddOrder(s, data, now).orders[|s.orders|];
            IsNumeral(o.id) && DigitsValue(o.id) == now
  {
  }

  /** Deleting a freshly added order restores the order list exactly. */
  lemma AddThenDeleteRestores(s: AdminState, data: OrderData, now: nat, later: nat)
    requires !HasOrder(s.orders, IdAt(now))
    ensures DeleteOrder(AddOrder(s, data, now), IdAt(now), later).orders == s.orders
  {
    var p := (o: Order) => o.id != IdAt(now);
    var o := NewOrder(data, now);
    FilterAppend(s.orders, [o], p);
    assert Filter([o], p) == [];
  }

  /** Updating an id no order has changes nothing at all. */
  lemma UpdateMissingIsNoop(s: AdminState, orderId: string, p: OrderPatch, now: nat)
    requires !HasOrder(s.orders, orderId)
    ensures UpdateOrder(s, orderId, p, now) == s
  {
    assert UpdateOrder(s, orderId, p, now).orders == s.orders;
  }

  /** Applying the same patch twice equals applying it once: a patch that
      changes the id leaves no order for the second pass to match. */
  lemma UpdateIdempotent(s: AdminState, orderId: string, p: OrderPatch, now: nat, later: nat)
    ensures UpdateOrder(UpdateOrder(s, orderId, p, now), orderId, p, later).orders
            == UpdateOrder(s, orderId, p, now).orders
  {
  }

  /** Deleting an id twice: the second delete is a no-op. */
  lemma DeleteIdempotent(s: AdminState, orderId: string, now: nat, later: nat)
    ensures DeleteOrder(DeleteOrder(s, orderId, now), orderId, later) == DeleteOrder(s, orderId, now)
  {
  }

  /** An update the delete then discards leaves no trace in the orders. */
  lemma DeleteAfterUpdate(s: AdminState, orderId: string, p: OrderPatch, now: nat, later: nat)
    requires KeepsId(p, orderId)
    ensures DeleteOrder(UpdateOrder(s, orderId, p, now), orderId, later).orders
            == DeleteOrder(s, orderId, later).orders
  {
    PatchThenRemove(s.orders, orderId, p);
  }

  lemma {:induction false} PatchThenRemove(orders: seq<Order>, orderId: string, p: OrderPatch)
    requires KeepsId(p, orderId)
    ensures RemoveOrders(PatchOrders(orders, orderId, p), orderId) == RemoveOrders(orders, orderId)
    decreases |orders|
  {
    if orders != [] {
      PatchThenRemove(orders[1..], orderId, p);
      assert PatchOrders(orders, orderId, p)[1..] == PatchOrders(orders[1..], orderId, p);
    }
  }

  /** A second reset is a no-op. */
  lemma ResetIdempotent(s: AdminState, now: nat, later: nat)
    ensures ResetPin(ResetPin(s, now), later) == ResetPin(s, now)
  {
  }

  /** Resetting right after saving clears the current PIN but the history
      keeps it, and the reset log names the saved PIN's order. */
  lemma SaveThenReset(s: AdminState, orderId: string, code: string, now: nat, later: nat)
    ensures var (st, pin) := SavePin(s, orderId, code, now);
            var r := ResetPin(st, later);
            && r.currentPin.None? && r.pinHistory == [pin] + s.pinHistory
            && r.activityLogs[0].action == "PIN Reset" && r.activityLogs[0].orderId == Some(orderId)
            && r.activityLogs[2..] == s.activityLogs
  {
  }

  /** `generatePIN` is `savePIN` with the drawn code, plus the notification. */
  lemma GenerateIsSavePlusNotification(s: AdminState, orderId: string, draw: nat, now: nat)
    requires draw < 9000
    ensures var (g, gp) := GeneratePin(s, orderId, draw, now);
            var (v, vp) := SavePin(s, orderId, PinCode(draw), now);
            gp == vp && g.(notifications := v.notifications) == v && g.notifications[1..] == v.notifications
  {
  }
}

=== FILE: options.dfy ===
/** Absence, as the JavaScript code meets it: a property that is `undefined`
    or `null`, an environment variable nobody set, a dialog with no order
    selected. */
module Options {

  datatype Option<+T> = None | Some(value: T) {

    /** The present value, else `fallback`: what `x ?? fallback` gives. */
    function ValueOr(fallback: T): (r: T)
      ensures Some? ==> r == value
      ensures None? ==> r == fallback
    {
      if Some? then value else fallback
    }
  }
}

=== FILE: order_management.dfy ===
/** The logic of the order management screen
    (`src/components/OrderManagement.tsx`): the search/status filter, the
    tracking-number generator and the add/edit/delete guards, lifted out of
    the component. A handler's result is the store call it makes, or `None`
    when it only shows a "Missing Information" toast or does nothing. */
module OrderManagement {
  import opened Options
  import opened Strings
  import opened Seqs
  import opened AdminStore

  /** The query matches, ignoring ASCII case, inside the customer name, the
      description or the id. */
  predicate MatchesSearch(o: Order, query: string) {
    var q := ToLower(query);
    Includes(ToLower(o.customerName), q) || Includes(ToLower(o.description), q) || Includes(ToLower(o.id), q)
  }

  /** The status filter is `'all'` or names the order's status. */
  predicate MatchesStatus(o: Order, filterStatus: string) {
    filterStatus == "all" || StatusName(o.status) == filterStatus
  }

  /** `filteredOrders`: the orders kept by both the search and the status
      filter, in their original order. */
  function FilteredOrders(orders: seq<Order>, query: string, filterStatus: string): (r: seq<Order>)
    ensures forall o :: o in r <==> o in orders && MatchesSearch(o, query) && MatchesStatus(o, filterStatus)
    ensures forall o :: multiset(r)[o] ==
              if MatchesSearch(o, query) && MatchesStatus(o, filterStatus) then multiset(orders)[o] else 0
    ensures IsSubseq(r, orders)
    ensures query == "" && filterStatus == "all" ==> r == orders
  {
    FilterMultiset(orders, (o: Order) => MatchesSearch(o, query) && MatchesStatus(o, filterStatus));
    Filter(orders, (o: Order) => MatchesSearch(o, query) && MatchesStatus(o, filterStatus))
  }

  /** The search is case-insensitive in the query. */
  lemma SearchIgnoresQueryCase(o: Order, query: string)
    ensures MatchesSearch(o, query) == MatchesSearch(o, ToLower(query))
  {
    ToLowerIdempotent(query);
  }

  /** Searching for an order's own id finds it. */
  lemma SearchFindsOwnId(o: Order)
    ensures MatchesSearch(o, o.id)
  {
    var q := ToLower(o.id);
    assert OccursAt(q, ToLower(o.id), 0);
  }

  const TrackingPrefix := "TRK"

  /** `Date.now().toString().slice(-8)` denotes the timestamp modulo 10^8,
      and has all 8 digits exactly from 10^7 on. */
  lemma StampDigits(now: nat)
    ensures AllDigits(TakeLast(NatToString(now), 8))
    ensures DigitsValue(TakeLast(NatToString(now), 8)) == now % Pow10(8)
    ensures |TakeLast(NatToString(now), 8)| == 8 <==> now >= Pow10(7)
  {
    var stamp := NatToString(now);
    var last8 := TakeLast(stamp, 8);
    NatToStringLength(now, 8);
    NatToStringLength(now, 7);
    if |stamp| <= 8 {
      assert last8 == stamp;
      ModOfDecomposition(now, 0, Pow10(8), now);
    } else {
      assert last8 == stamp[|stamp| - 8..];
      SuffixDigitsValue(stamp, 8);
    }
  }

  /** `String(draw).padStart(3, '0')` has three digits denoting `draw`. */
  lemma PaddedDraw(draw: nat)
    requires draw < 1000
    ensures |PadStart(NatToString(draw), 3, '0')| == 3
    ensures AllDigits(PadStart(NatToString(draw), 3, '0'))
    ensures DigitsValue(PadStart(NatToString(draw), 3, '0')) == draw
  {
    var digits := NatToString(draw);
    NatToStringLength(draw, 3);
    var padded := PadStart(digits, 3, '0');
    assert padded == padded[..3 - |digits|] + digits;
    LeadingZerosValue(padded[..3 - |digits|], digits);
  }

  /** The three parts of `a + b + c` can be sliced back out. */
  lemma ThreePartSlices(a: string, b: string, c: string)
    requires |a| == 3 && |c| == 3
    ensures var r := a + b + c;
            && r[..3] == a && r[3..] == b + c && r[3..|r| - 3] == b && r[|r| - 3..] == c
  {
    var r := a + b + c;
    assert r[..3] == a;
    assert r[3..] == b + c;
  }

  /** `generateTrackingNumber`: "TRK", the last 8 digits of the timestamp,
      and a three-digit zero-padded random value, where `draw` is
      `Math.floor(Math.random() * 1000)`. */
  function TrackingNumber(now: nat, draw: nat): (r: string)
    requires draw < 1000
    ensures |r| >= 7 && r[..3] == TrackingPrefix && AllDigits(r[3..])
    ensures DigitsValue(r[3..|r| - 3]) == now % Pow10(8)
    ensures DigitsValue(r[|r| - 3..]) == draw
    ensures |r| == 14 <==> now >= Pow10(7)
    ensures |r| <= 14
  {
    var last8 := TakeLast(NatToString(now), 8);
    var padded := PadStart(NatToString(draw), 3, '0');
    StampDigits(now);
    PaddedDraw(draw);
    ThreePartSlices(TrackingPrefix, last8, padded);
    TrackingPrefix + last8 + padded
  }

  /** The add/edit dialog's fields, all strings as the inputs hold them. */
  datatype FormData = FormData(
    customerName: string,
    customerPhone: string,
    customerEmail: string,
    description: string,
    trackingNumber: string,
    status: Status)

  /** The required fields are non-empty (whitespace-only passes). */
  predicate FormComplete(f: FormData) {
    f.customerName != "" && f.description != ""
  }

  /** A call a handler makes on the store. */
  datatype StoreCall =
    | AddOrderCall(data: OrderData)
    | UpdateOrderCall(orderId: string, patch: OrderPatch)
    | DeleteOrderCall(orderId: string)

  /** The store's response to a call. */
  function Perform(s: AdminState, call: StoreCall, now: nat): AdminState {
    match call
    case AddOrderCall(data) => AddOrder(s, data, now)
    case UpdateOrderCall(orderId, patch) => UpdateOrder(s, orderId, patch, now)
    case DeleteOrderCall(orderId) => DeleteOrder(s, orderId, now)
  }

  /** `handleAddOrder`: nothing without a name and a description; otherwise
      `addOrder` with the form, keeping a non-empty tracking number and
      generating one only for an empty field. */
  function HandleAddOrder(f: FormData, now: nat, draw: nat): (r: Option<StoreCall>)
    requires draw < 1000
    ensures r.None? <==> !FormComplete(f)
    ensures r.Some? ==>
              && r.value.AddOrderCall?
              && var d := r.value.data;
                 && d.customerName == f.customerName && d.description == f.description
                 && d.customerPhone == Some(f.customerPhone) && d.customerEmail == Some(f.customerEmail)
                 && d.status == f.status
                 && d.trackingNumber.Some? && d.trackingNumber.value != ""
                 && (f.trackingNumber != "" ==> d.trackingNumber.value == f.trackingNumber)
                 && (f.trackingNumber == "" ==> d.trackingNumber.value == TrackingNumber(now, draw))
  {
    if f.customerName == "" || f.description == "" then None
    else
      var tracking := if f.trackingNumber != "" then f.trackingNumber else TrackingNumber(now, draw);
      Some(AddOrderCall(OrderData(f.customerName, Some(f.customerPhone), Some(f.customerEmail),
                                  f.description, Some(tracking), f.status)))
  }

  /** The patch the edit dialog submits: every form field, never the id or
      the creation time. */
  function FormPatch(f: FormData): (p: OrderPatch)
    ensures p.id.None? && p.createdAt.None?
    ensures && p.customerName == Some(f.customerName) && p.customerPhone == Some(f.customerPhone)
            && p.customerEmail == Some(f.customerEmail) && p.description == Some(f.description)
            && p.trackingNumber == Some(f.trackingNumber) && p.status == Some(f.status)
  {
    OrderPatch(None, Some(f.customerName), Some(f.customerPhone), Some(f.customerEmail),
               Some(f.description), Some(f.trackingNumber), Some(f.status), None)
  }

  /** `handleEditOrder`: nothing without a selection or with a required field
      empty; otherwise `updateOrder(selectedOrder.id, formData)`. */
  function HandleEditOrder(selected: Option<Order>, f: FormData): (r: Option<StoreCall>)
    ensures r.None? <==> selected.None? || !FormComplete(f)
    ensures r.Some? ==> r.value == UpdateOrderCall(selected.value.id, FormPatch(f))
  {
    match selected
    case None => None
    case Some(o) => if !FormComplete(f) then None else Some(UpdateOrderCall(o.id, FormPatch(f)))
  }

  /** `handleDeleteOrder`: nothing without a selection; otherwise
      `deleteOrder(selectedOrder.id)`. */
  function HandleDeleteOrder(selected: Option<Order>): (r: Option<StoreCall>)
    ensures r.None? <==> selected.None?
    ensures r.Some? ==> r.value == DeleteOrderCall(selected.value.id)
  {
    match selected
    case None => None
    case Some(o) => Some(DeleteOrderCall(o.id))
  }

  /** A submitted add appends one order carrying a non-empty tracking number. */
  lemma AddedOrderIsTracked(s: AdminState, f: FormData, now: nat, draw: nat, t: nat)
    requires draw < 1000 && FormComplete(f)
    ensures var r := Perform(s, HandleAddOrder(f, now, draw).value, t);
            && |r.orders| == |s.orders| + 1 && r.orders[..|s.orders|] == s.orders
            && r.orders[|s.orders|].customerName == f.customerName
            && r.orders[|s.orders|].trackingNumber.Some?
            && r.orders[|s.orders|].trackingNumber.value != ""
  {
  }

  /** A submitted edit rewrites the form fields of the selected order, keeps
      its id and creation time, touches no other order, and logs exactly
      when the selected id is still in the store. */
  lemma EditRewritesSelected(s: AdminState, o: Order, f: FormData, now: nat)
    requires FormComplete(f)
    ensures var r := Perform(s, HandleEditOrder(Some(o), f).value, now);
            && |r.orders| == |s.orders|
            && (forall i :: 0 <= i < |s.orders| && s.orders[i].id != o.id ==> r.orders[i] == s.orders[i])
            && (forall i :: 0 <= i < |s.orders| && s.orders[i].id == o.id ==>
                  && r.orders[i].id == o.id && r.orders[i].createdAt == s.orders[i].createdAt
                  && r.orders[i].customerName == f.customerName && r.orders[i].description == f.description
                  && r.orders[i].customerPhone == Some(f.customerPhone)
                  && r.orders[i].customerEmail == Some(f.customerEmail)
                  && r.orders[i].status == f.status && r.orders[i].trackingNumber == Some(f.trackingNumber))
            && (r.activityLogs != s.activityLogs <==> HasOrder(s.orders, o.id))
  {
  }

  /** A confirmed delete leaves no order with the selected id and keeps all
      others in order. */
  lemma DeleteRemovesSelected(s: AdminState, o: Order, now: nat)
    ensures var r := Perform(s, HandleDeleteOrder(Some(o)).value, now);
            && !HasOrder(r.orders, o.id)
            && IsSubseq(r.orders, s.orders)
            && (forall x :: x in s.orders && x.id != o.id ==> x in r.orders)
            && (forall x: Order :: x.id != o.id ==> multiset(r.orders)[x] == multiset(s.orders)[x])
  {
  }
}

=== FILE: pin_management.dfy ===
/** The logic of the PIN management screen
    (`src/components/PINManagement.tsx`): the orders offered for a PIN, the
    generate and reset handlers, and the history panel. */
module PinManagement {
  import opened Options
  import opened Seqs
  import opened AdminStore

  /** The history panel shows at most this many PINs. */
  const HistoryShown: nat := 5

  predicate AwaitingDelivery(o: Order) {
    o.status == Pending || o.status == Assigned
  }

  /** `pendingOrders`: the pending and assigned orders, in their order. */
  function PendingOrders(orders: seq<Order>): (r: seq<Order>)
    ensures forall o :: o in r <==> o in orders && AwaitingDelivery(o)
    ensures forall o :: multiset(r)[o] == if AwaitingDelivery(o) then multiset(orders)[o] else 0
    ensures forall i :: 0 <= i < |r| ==> r[i].status != Delivered
    ensures IsSubseq(r, orders)
  {
    FilterMultiset(orders, AwaitingDelivery);
    Filter(orders, AwaitingDelivery)
  }

  /** A new order joins the end of the pending list exactly when it is
      created pending or assigned; the earlier pending orders stay as they
      were, in order. */
  lemma {:induction false} PendingAfterAddOrder(s: AdminState, data: OrderData, now: nat)
    ensures PendingOrders(AddOrder(s, data, now).orders) ==
              PendingOrders(s.orders) + (if AwaitingDelivery(NewOrder(data, now)) then [NewOrder(data, now)] else [])
  {
    var o := NewOrder(data, now);
    assert AddOrder(s, data, now).orders == s.orders + [o];
    FilterAppend(s.orders, [o], AwaitingDelivery);
    assert [o][1..] == [];
  }

  /** `handleGeneratePIN`: nothing without a selected order; otherwise one
      `generatePIN(selectedOrderId)`, which issues exactly one PIN for that
      order and adds one history entry, one log and one notification. */
  function HandleGeneratePin(s: AdminState, selectedOrderId: string, draw: nat, now: nat): (r: AdminState)
    requires draw < 9000
    ensures selectedOrderId == "" ==> r == s
    ensures selectedOrderId != "" ==>
              && r.currentPin.Some? && r.currentPin.value.orderId == selectedOrderId
              && r.pinHistory == [r.currentPin.value] + s.pinHistory
              && |r.activityLogs| == |s.activityLogs| + 1 && r.activityLogs[1..] == s.activityLogs
              && |r.notifications| == |s.notifications| + 1 && r.notifications[1..] == s.notifications
              && r.orders == s.orders
  {
    if selectedOrderId == "" then s else GeneratePin(s, selectedOrderId, draw, now).0
  }

  /** `handleResetPIN`: delegates to `resetPIN`, so it is a no-op when no
      PIN is current and otherwise leaves none current. */
  function HandleResetPin(s: AdminState, now: nat): (r: AdminState)
    ensures s.currentPin.None? ==> r == s
    ensures r.currentPin.None? && r.pinHistory == s.pinHistory
  {
    ResetPin(s, now)
  }

  /** `pinHistory.slice(0, 5)`: the most recent PINs, newest first. */
  function HistoryView(history: seq<Pin>): (r: seq<Pin>)
    ensures |r| == if |history| < HistoryShown then |history| else HistoryShown
    ensures r == history[..|r|]
  {
    if |history| < HistoryShown then history else history[..HistoryShown]
  }

  /** A newly generated PIN heads the history panel, followed by the four
      most recent earlier ones. */
  lemma GeneratedPinHeadsHistory(s: AdminState, selectedOrderId: string, draw: nat, now: nat)
    requires draw < 9000 && selectedOrderId != ""
    ensures var r := HandleGeneratePin(s, selectedOrderId, draw, now);
            var shown := HistoryView(r.pinHistory);
            && shown[0] == r.currentPin.value
            && shown[1..] == HistoryView(s.pinHistory)[..|shown| - 1]
  {
  }
}

=== FILE: send_pin.dfy ===
/** The PIN dispatch serverless handler (`netlify/functions/sendPin.js`).

    The handler is a pure function of the inbound event, the environment
    configuration and the outcomes of its two outbound `fetch` calls. Its
    result records the response it returns and the outbound calls it made,
    in order, so "no outbound call" reads as `calls == []`. An outcome
    passed in for a call that is never made has no effect on the result. */
module SendPin {
  import opened Options
  import opened Strings

  /** A value found in the parsed JSON body. Numbers are integers here;
      arrays and objects are one opaque truthy value. */
  datatype JsValue = JsNull | JsBool(b: bool) | JsNumber(n: int) | JsString(s: string) | JsObject

  /** JavaScript truthiness of a property that may be `undefined` (`None`):
      apart from floating-point `NaN` and `-0`, which this value type does
      not hold, the falsy values are exactly `undefined`, `null`, `false`,
      `0` and `""`. */
  function Truthy(v: Option<JsValue>): (b: bool)
    ensures b <==> v !in {None, Some(JsNull), Some(JsBool(false)), Some(JsNumber(0)), Some(JsString(""))}
  {
    match v
    case None => false
    case Some(JsNull) => false
    case Some(JsBool(b)) => b
    case Some(JsNumber(n)) => n != 0
    case Some(JsString(s)) => s != ""
    case Some(JsObject) => true
  }

  /** `String(v)`, as a template literal converts an interpolated value.
      Only the empty string renders empty, and an integer renders as its
      canonical decimal numeral, signed when negative. */
  function JsToString(v: JsValue): (s: string)
    ensures s == "" <==> v == JsString("")
    ensures v.JsString? ==> s == v.s
    ensures v.JsBool? ==> s == if v.b then "true" else "false"
    ensures v.JsNull? ==> s == "null"
    ensures v.JsNumber? && v.n >= 0 ==> IsNumeral(s) && DigitsValue(s) == v.n
    ensures v.JsNumber? && v.n < 0 ==> s[0] == '-' && IsNumeral(s[1..]) && DigitsValue(s[1..]) == -v.n
  {
    match v
    case JsNull => "null"
    case JsBool(b) => if b then "true" else "false"
    case JsNumber(n) =>
      if n < 0 then
        var digits := NatToString(-n);
        assert ("-" + digits)[1..] == digits;
        "-" + digits
      else NatToString(n)
    case JsString(s) => s
    case JsObject => "[object Object]"
  }

  /** What `JSON.parse(event.body || '{}')` and the destructuring of
      `orderId`, `pin` and `phone` produce: either they throw (malformed
      JSON, or a `null` body that cannot be destructured), or the three
      properties, each possibly `undefined`. */
  datatype RequestBody =
    | BodyThrows(message: string)
    | Fields(orderId: Option<JsValue>, pin: Option<JsValue>, phone: Option<JsValue>)

  datatype Event = Event(httpMethod: string, body: RequestBody)

  /** The environment variables the handler reads; `None` is unset. */
  datatype Config = Config(allowedOrigin: Option<string>, thingspeakKey: Option<string>, bulksmsKey: Option<string>)

  /** An environment variable that is set to a non-empty (truthy) string. */
  predicate IsSet(v: Option<string>) {
    v.Some? && v.value != ""
  }

  /** `process.env.ALLOWED_ORIGIN || '*'`. */
  function AllowedOrigin(c: Config): (origin: string)
    ensures origin != ""
    ensures IsSet(c.allowedOrigin) ==> origin == c.allowedOrigin.value
    ensures !IsSet(c.allowedOrigin) ==> origin == "*"
  {
    if IsSet(c.allowedOrigin) then c.allowedOrigin.value else "*"
  }

  /** The ThingSpeak `fetch`: it throws, or it answers with `ok`, a status
      and a body whose reading may fail (`None`). */
  datatype ThingSpeakOutcome =
    | TsFetchThrows(message: string)
    | TsReply(ok: bool, status: int, text: Option<string>)

  /** The BulkSMS `fetch`: it throws, or it answers with `ok`, a status and
      a body that may not parse as JSON (`None`). */
  datatype SmsOutcome =
    | SmsFetchThrows(error: string)
    | SmsReply(ok: bool, status: int, json: Option<JsValue>)

  /** An outbound call. The URL and JSON encodings of the arguments are not
      modelled; the calls carry the values that are encoded. */
  datatype Call =
    | ThingSpeakUpdate(apiKey: string, field1: JsValue)
    | BulkSmsSend(authorization: string, number: JsValue, message: string)

  /** The `sms` member of a successful response. */
  datatype SmsResult =
    | SmsAnswered(ok: bool, status: int, body: JsValue)
    | SmsError(error: string)

  datatype Headers = Headers(
    allowOrigin: string,
    allowMethods: Option<string>,
    allowHeaders: Option<string>,
    contentType: Option<string>)

  /** The JSON body of a response, before `JSON.stringify`. */
  datatype Body =
    | EmptyBody
    | MessageBody(message: string)
    | UpdateFailed(message: string, details: string)
    | Dispatched(thingspeakEntry: string, sms: Option<SmsResult>)

  datatype Response = Response(statusCode: int, headers: Headers, body: Body)

  datatype Dispatch = Dispatch(response: Response, calls: seq<Call>)

  /** Substituted for a ThingSpeak body that could not be read. */
  const NoBodyPlaceholder := "<no body>"

  /** ThingSpeak acknowledges a write with the new entry's number and answers
      a write it refused with entry number `0`, even under HTTP 200. */
  const RejectedEntry := "0"

  const ServerErrorMessage := "Server error"

  /** The ThingSpeak body text as the handler holds it. */
  function ThingSpeakText(text: Option<string>): string {
    text.ValueOr(NoBodyPlaceholder)
  }

  /** The write counts as done: HTTP success and not the refusal sentinel
      once surrounding whitespace is trimmed. */
  predicate ThingSpeakAccepted(ok: bool, text: string) {
    ok && Trim(text) != RejectedEntry
  }

  predicate IsPost(e: Event) {
    e.httpMethod == "POST"
  }

  /** Both required fields are present and truthy. */
  predicate HasRequiredFields(b: RequestBody) {
    b.Fields? && Truthy(b.orderId) && Truthy(b.pin)
  }

  /** Everything checked before the first outbound call passes. */
  predicate PassesValidation(e: Event, c: Config) {
    IsPost(e) && HasRequiredFields(e.body) && IsSet(c.thingspeakKey)
  }

  /** ThingSpeak was called and accepted the write. */
  predicate WriteAccepted(e: Event, c: Config, ts: ThingSpeakOutcome) {
    PassesValidation(e, c) && ts.TsReply? && ThingSpeakAccepted(ts.ok, ThingSpeakText(ts.text))
  }

  /** The SMS leg is wanted: a truthy phone and a configured BulkSMS key. */
  predicate SmsRequested(e: Event, c: Config) {
    e.body.Fields? && Truthy(e.body.phone) && IsSet(c.bulksmsKey)
  }

  /** The caught outcome of the SMS leg; a throw never escapes it. */
  function SmsResultOf(o: SmsOutcome): (r: SmsResult)
    ensures r.SmsError? <==> o.SmsFetchThrows?
    ensures r.SmsAnswered? ==> r.ok == o.ok && r.status == o.status
    // the parsed reply, or `null` when it is not JSON
    ensures r.SmsAnswered? ==> r.body == o.json.ValueOr(JsNull)
    ensures r.SmsError? ==> r.error == o.error
  {
    match o
    case SmsFetchThrows(error) => SmsError(error)
    case SmsReply(ok, status, json) => SmsAnswered(ok, status, json.ValueOr(JsNull))
  }

  /** `err?.message || 'Server error'`. */
  function ErrorMessage(message: string): (m: string)
    ensures m != ""
    ensures message != "" ==> m == message
    ensures message == "" ==> m == ServerErrorMessage
  {
    if message == "" then ServerErrorMessage else message
  }

  function PlainHeaders(origin: string): Headers {
    Headers(origin, None, None, None)
  }

  function Reject(status: int, origin: string, message: string): Response {
    Response(status, PlainHeaders(origin), MessageBody(message))
  }

  /** The handler. Checks run in the source's order: pre-flight, method,
      body, required fields, ThingSpeak key; then the ThingSpeak write, and
      only after an accepted write the best-effort SMS leg. */
  function Handle(e: Event, c: Config, ts: ThingSpeakOutcome, sms: SmsOutcome): (d: Dispatch)
    // every response carries the configured origin
    ensures d.response.headers.allowOrigin == AllowedOrigin(c)
    ensures d.response.statusCode in {200, 400, 405, 500, 502}
    // pre-flight
    ensures e.httpMethod == "OPTIONS" ==>
              && d.calls == []
              && d.response == Response(200, Headers(AllowedOrigin(c), Some("POST, OPTIONS"),
                                                     Some("Content-Type, Authorization"), None), EmptyBody)
    // any other verb
    ensures e.httpMethod != "OPTIONS" && !IsPost(e) ==>
              d.calls == [] && d.response == Reject(405, AllowedOrigin(c), "Method Not Allowed")
    ensures IsPost(e) && e.body.BodyThrows? ==>
              d.calls == [] && d.response == Reject(500, AllowedOrigin(c), ErrorMessage(e.body.message))
    // the field check precedes the key check
    ensures IsPost(e) && e.body.Fields? && !HasRequiredFields(e.body) ==>
              d.calls == [] && d.response == Reject(400, AllowedOrigin(c), "orderId and pin are required")
    ensures IsPost(e) && HasRequiredFields(e.body) && !IsSet(c.thingspeakKey) ==>
              d.calls == [] && d.response == Reject(500, AllowedOrigin(c), "ThingSpeak key not configured")
    // ThingSpeak is written exactly when validation passes, and first
    ensures d.calls != [] <==> PassesValidation(e, c)
    ensures d.calls != [] ==> d.calls[0] == ThingSpeakUpdate(c.thingspeakKey.value, e.body.pin.value)
    // a failed write stops before the SMS leg
    ensures PassesValidation(e, c) && ts.TsFetchThrows? ==>
              d.calls == [d.calls[0]] && d.response == Reject(500, AllowedOrigin(c), ErrorMessage(ts.message))
    ensures d.response.statusCode == 502 <==>
              PassesValidation(e, c) && ts.TsReply? && !ThingSpeakAccepted(ts.ok, ThingSpeakText(ts.text))
    ensures d.response.statusCode == 502 ==>
              d.calls == [d.calls[0]]
              && d.response.body == UpdateFailed("ThingSpeak update failed", ThingSpeakText(ts.text))
    // the SMS leg runs exactly after an accepted write when it is requested
    // at most the ThingSpeak write and one SMS
    ensures |d.calls| <= 2
    ensures |d.calls| == 2 <==> WriteAccepted(e, c, ts) && SmsRequested(e, c)
    ensures |d.calls| == 2 ==>
              d.calls[1] == BulkSmsSend("Bearer " + c.bulksmsKey.value, e.body.phone.value,
                                        "Your delivery PIN is " + JsToString(e.body.pin.value))
    // success is decided by the write alone and never downgraded by SMS
    ensures d.response.body.Dispatched? <==> WriteAccepted(e, c, ts)
    ensures d.response.body.Dispatched? ==>
              && d.response.statusCode == 200
              && d.response.headers.contentType == Some("application/json")
              && d.response.body.thingspeakEntry == Trim(ThingSpeakText(ts.text))
              && (d.response.body.sms.Some? <==> SmsRequested(e, c))
              && (d.response.body.sms.Some? ==> d.response.body.sms.value == SmsResultOf(sms))
  {
    var origin := AllowedOrigin(c);
    if e.httpMethod == "OPTIONS" then
      Dispatch(Response(200, Headers(origin, Some("POST, OPTIONS"), Some("Content-Type, Authorization"), None),
                        EmptyBody), [])
    else if e.httpMethod != "POST" then
      Dispatch(Reject(405, origin, "Method Not Allowed"), [])
    else
      match e.body
      case BodyThrows(message) =>
        Dispatch(Reject(500, origin, ErrorMessage(message)), [])
      case Fields(orderId, pin, phone) =>
        if !Truthy(orderId) || !Truthy(pin) then
          Dispatch(Reject(400, origin, "orderId and pin are required"), [])
        else if !IsSet(c.thingspeakKey) then
          Dispatch(Reject(500, origin, "ThingSpeak key not configured"), [])
        else
          var write := ThingSpeakUpdate(c.thingspeakKey.value, pin.value);
          match ts
          case TsFetchThrows(message) =>
            Dispatch(Reject(500, origin, ErrorMessage(message)), [write])
          case TsReply(ok, _, text) =>
            var tsText := ThingSpeakText(text);
            if !ok || Trim(tsText) == RejectedEntry then
              Dispatch(Response(502, PlainHeaders(origin), UpdateFailed("ThingSpeak update failed", tsText)), [write])
            else
              var headers := Headers(origin, None, None, Some("application/json"));
              if Truthy(phone) && IsSet(c.bulksmsKey) then
                var send := BulkSmsSend("Bearer " + c.bulksmsKey.value, phone.value,
                                        "Your delivery PIN is " + JsToString(pin.value));
                Dispatch(Response(200, headers, Dispatched(Trim(tsText), Some(SmsResultOf(sms)))), [write, send])
              else
                Dispatch(Response(200, headers, Dispatched(Trim(tsText), None)), [write])
  }

  /** The SMS outcome never changes the status, the ThingSpeak entry or the
      calls made: SMS failure cannot downgrade a dispatch. */
  lemma SmsNeverDowngrades(e: Event, c: Config, ts: ThingSpeakOutcome, sms1: SmsOutcome, sms2: SmsOutcome)
    ensures Handle(e, c, ts, sms1).response.statusCode == Handle(e, c, ts, sms2).response.statusCode
    ensures Handle(e, c, ts, sms1).calls == Handle(e, c, ts, sms2).calls
    ensures Handle(e, c, ts, sms1).response.body.Dispatched? <==> Handle(e, c, ts, sms2).response.body.Dispatched?
  {
  }

  /** A throwing SMS call still yields a 200 success carrying the error. */
  lemma SmsThrowStillSucceeds(e: Event, c: Config, ts: ThingSpeakOutcome, error: string)
    requires WriteAccepted(e, c, ts) && SmsRequested(e, c)
    ensures Handle(e, c, ts, SmsFetchThrows(error)).response.statusCode == 200
    ensures Handle(e, c, ts, SmsFetchThrows(error)).response.body == Dispatched(Trim(ThingSpeakText(ts.text)), Some(SmsError(error)))
  {
  }

  /** A response decided before any outbound call depends on neither
      outbound outcome. */
  lemma NoCallNoDependence(e: Event, c: Config, ts1: ThingSpeakOutcome, ts2: ThingSpeakOutcome,
                           sms1: SmsOutcome, sms2: SmsOutcome)
    requires Handle(e, c, ts1, sms1).calls == []
    ensures Handle(e, c, ts2, sms2) == Handle(e, c, ts1, sms1)
  {
  }

  /** The field check comes before the key check: a POST lacking a required
      field gets 400 whatever keys are configured. */
  lemma MissingFieldIgnoresKeys(e: Event, c1: Config, c2: Config, ts: ThingSpeakOutcome, sms: SmsOutcome)
    requires IsPost(e) && e.body.Fields? && !HasRequiredFields(e.body)
    requires c1.allowedOrigin == c2.allowedOrigin
    ensures Handle(e, c1, ts, sms) == Handle(e, c2, ts, sms)
    ensures Handle(e, c1, ts, sms).response.statusCode == 400
  {
  }

  /** The refusal sentinel is recognised with any surrounding whitespace,
      even under HTTP success. */
  lemma SentinelWithWhitespaceFails(e: Event, c: Config, status: int, w1: string, w2: string, sms: SmsOutcome)
    requires PassesValidation(e, c)
    requires AllWhitespace(w1) && AllWhitespace(w2)
    ensures Handle(e, c, TsReply(true, status, Some(w1 + RejectedEntry + w2)), sms).response
            == Response(502, PlainHeaders(AllowedOrigin(c)),
                        UpdateFailed("ThingSpeak update failed", w1 + RejectedEntry + w2))
  {
    TrimOfWrapped(w1, RejectedEntry, w2);
  }

  /** The success entry is the trimmed body, itself free of edge whitespace. */
  lemma EntryIsTrimmed(e: Event, c: Config, ts: ThingSpeakOutcome, sms: SmsOutcome)
    requires WriteAccepted(e, c, ts)
    ensures Handle(e, c, ts, sms).response.body.thingspeakEntry != RejectedEntry
    ensures NoEdgeWhitespace(Handle(e, c, ts, sms).response.body.thingspeakEntry)
  {
  }
}

=== FILE: seqs.dfy ===
/** Order-preserving sequence operations shared by the store and the
    components: JavaScript's `Array.prototype.filter` and `find`, and the
    subsequence relation that says a filter keeps the original order. */
module Seqs {
  import opened Options

  /** `a` is obtained from `b` by deleting elements (order is preserved). */
  predicate IsSubseq<T(==)>(a: seq<T>, b: seq<T>)
    decreases |b|
  {
    if a == [] then true
    else if b == [] then false
    else if a[0] == b[0] then IsSubseq(a[1..], b[1..])
    else IsSubseq(a, b[1..])
  }

  /** Dropping the head of the larger sequence keeps a subsequence one. */
  lemma {:induction false} SubseqOfTail<T>(a: seq<T>, b: seq<T>)
    requires b != [] && IsSubseq(a, b[1..])
    ensures IsSubseq(a, b)
    decreases |b|, 0
  {
    if a != [] && a[0] == b[0] {
      SubseqDropHead(a, b[1..]);
    }
  }

  /** A subsequence stays one after its first element is removed. */
  lemma {:induction false} SubseqDropHead<T>(a: seq<T>, b: seq<T>)
    requires a != [] && IsSubseq(a, b)
    ensures IsSubseq(a[1..], b)
    decreases |b|, 1
  {
    if a[0] == b[0] {
      SubseqOfTail(a[1..], b);
    } else {
      SubseqDropHead(a, b[1..]);
      SubseqOfTail(a[1..], b);
    }
  }

  /** The elements of `s` satisfying `p`, in their original order. */
  function Filter<T(!new)>(s: seq<T>, p: T -> bool): (r: seq<T>)
    ensures |r| <= |s|
    ensures forall i :: 0 <= i < |r| ==> p(r[i])
    ensures forall x :: x in r <==> x in s && p(x)
    ensures IsSubseq(r, s)
    ensures (forall i :: 0 <= i < |s| ==> p(s[i])) ==> r == s
    decreases |s|
  {
    if s == [] then []
    else
      var rest := Filter(s[1..], p);
      if p(s[0]) then
        assert ([s[0]] + rest)[1..] == rest;
        [s[0]] + rest
      else
        SubseqOfTail(rest, s);
        rest
  }

  /** Filtering distributes over concatenation. */
  lemma {:induction false} FilterAppend<T(!new)>(a: seq<T>, b: seq<T>, p: T -> bool)
    ensures Filter(a + b, p) == Filter(a, p) + Filter(b, p)
    decreases |a|
  {
    if a == [] {
      assert a + b == b;
    } else {
      assert (a + b)[1..] == a[1..] + b;
      FilterAppend(a[1..], b, p);
    }
  }

  /** A filter keeps every occurrence of a satisfying element and no
      occurrence of any other: together with `IsSubseq` this fixes the
      result uniquely, duplicates included. */
  lemma {:induction false} FilterMultiset<T(!new)>(s: seq<T>, p: T -> bool)
    ensures forall x :: multiset(Filter(s, p))[x] == if p(x) then multiset(s)[x] else 0
    decreases |s|
  {
    if s != [] {
      FilterMultiset(s[1..], p);
      assert s == [s[0]] + s[1..];
    }
  }

  /** The first element of `s` satisfying `p`, as `Array.prototype.find`
      returns it (`None` for `undefined`). */
  function FindFirst<T(==)>(s: seq<T>, p: T -> bool): (r: Option<T>)
    ensures r.None? <==> forall i :: 0 <= i < |s| ==> !p(s[i])
    ensures r.Some? ==> exists i :: 0 <= i < |s| && s[i] == r.value && p(s[i])
                                    && forall j :: 0 <= j < i ==> !p(s[j])
    decreases |s|
  {
    if s == [] then None
    else if p(s[0]) then Some(s[0])
    else
      var r := FindFirst(s[1..], p);
      if r.Some? then
        var i :| 0 <= i < |s[1..]| && s[1..][i] == r.value && p(s[1..][i])
                 && forall j :: 0 <= j < i ==> !p(s[1..][j]);
        assert s[i + 1] == r.value;
        r
      else r
  }
}

=== FILE: strings.dfy ===
/** The JavaScript string primitives the core relies on: `trim`,
    `toLowerCase`, `includes`, `slice(-k)`, `padStart`, and the decimal
    rendering of a non-negative integer (`Number.prototype.toString`). */
module Strings {

  /** A code point ECMAScript's `String.prototype.trim` strips: the
      WhiteSpace and LineTerminator code points of the language standard. */
  predicate IsWhitespace(c: char) {
    || c == '\t' || c == '\n' || c == '\U{B}' || c == '\U{C}' || c == '\r' || c == ' '
    || c == '\U{A0}' || c == '\U{1680}' || ('\U{2000}' <= c <= '\U{200A}')
    || c == '\U{2028}' || c == '\U{2029}' || c == '\U{202F}' || c == '\U{205F}'
    || c == '\U{3000}' || c == '\U{FEFF}'
  }

  predicate AllWhitespace(s: string) {
    forall i :: 0 <= i < |s| ==> IsWhitespace(s[i])
  }

  /** Neither end of `s` is whitespace: the shape of every trimmed string. */
  predicate NoEdgeWhitespace(s: string) {
    s == [] || (!IsWhitespace(s[0]) && !IsWhitespace(s[|s| - 1]))
  }

  /** `s` is whitespace, then `r` starting at index `i`, then whitespace. */
  predicate WrappedAt(s: string, r: string, i: int) {
    0 <= i <= |s| - |r| && s[i..i + |r|] == r && AllWhitespace(s[..i]) && AllWhitespace(s[i + |r|..])
  }

  /** Leading whitespace removed. */
  function TrimStart(s: string): (r: string)
    ensures |r| <= |s| && r == s[|s| - |r|..]
    ensures AllWhitespace(s[..|s| - |r|])
    ensures r == [] || !IsWhitespace(r[0])
    decreases |s|
  {
    if s != [] && IsWhitespace(s[0]) then
      var r := TrimStart(s[1..]);
      assert s[..|s| - |r|] == [s[0]] + s[1..][..|s[1..]| - |r|];
      assert s[|s| - |r|..] == s[1..][|s[1..]| - |r|..];
      r
    else s
  }

  /** Trailing whitespace removed. */
  function TrimEnd(s: string): (r: string)
    ensures |r| <= |s| && r == s[..|r|]
    ensures AllWhitespace(s[|r|..])
    ensures r == [] || !IsWhitespace(r[|r| - 1])
    decreases |s|
  {
    if s != [] && IsWhitespace(s[|s| - 1]) then
      var r := TrimEnd(s[..|s| - 1]);
      assert s[|r|..] == s[..|s| - 1][|r|..] + [s[|s| - 1]];
      assert s[..|r|] == s[..|s| - 1][..|r|];
      r
    else s
  }

  /** `String.prototype.trim`: `s` is some whitespace, then `r`, then some
      whitespace, and `r` neither starts nor ends with whitespace. */
  function Trim(s: string): (r: string)
    ensures NoEdgeWhitespace(r)
    ensures exists i :: WrappedAt(s, r, i)
  {
    var t := TrimStart(s);
    var r := TrimEnd(t);
    TrimParts(s, t, r);
    r
  }

  /** The two halves of Trim compose into a whitespace-wrapped infix. */
  lemma TrimParts(s: string, t: string, r: string)
    requires |t| <= |s| && t == s[|s| - |t|..] && AllWhitespace(s[..|s| - |t|])
    requires |r| <= |t| && r == t[..|r|] && AllWhitespace(t[|r|..])
    requires r == [] || !IsWhitespace(r[|r| - 1])
    requires t == [] || !IsWhitespace(t[0])
    ensures NoEdgeWhitespace(r)
    ensures WrappedAt(s, r, |s| - |t|)
  {
    var i := |s| - |t|;
    assert s[i..i + |r|] == r;
    assert s[i + |r|..] == t[|r|..];
    assert r != [] ==> r[0] == t[0];
  }

  /** TrimStart skips exactly a whitespace prefix. */
  lemma {:induction false} TrimStartSkips(w: string, t: string)
    requires AllWhitespace(w)
    requires t == [] || !IsWhitespace(t[0])
    ensures TrimStart(w + t) == t
    decreases |w|
  {
    if w == [] {
      assert w + t == t;
    } else {
      assert (w + t)[1..] == w[1..] + t;
      TrimStartSkips(w[1..], t);
    }
  }

  /** TrimEnd skips exactly a whitespace suffix. */
  lemma {:induction false} TrimEndSkips(t: string, w: string)
    requires AllWhitespace(w)
    requires t == [] || !IsWhitespace(t[|t| - 1])
    ensures TrimEnd(t + w) == t
    decreases |w|
  {
    if w == [] {
      assert t + w == t;
    } else {
      var w' := w[..|w| - 1];
      assert (t + w)[..|t + w| - 1] == t + w';
      TrimEndSkips(t, w');
    }
  }

  /** Trim is determined by its result's shape: whatever whitespace wraps a
      string with non-blank ends, trimming returns exactly that string. */
  lemma TrimOfWrapped(w1: string, x: string, w2: string)
    requires AllWhitespace(w1) && AllWhitespace(w2) && NoEdgeWhitespace(x)
    ensures Trim(w1 + x + w2) == x
  {
    if x == [] {
      assert w1 + x + w2 == w1 + w2;
      assert AllWhitespace(w1 + w2);
      TrimStartSkips(w1 + w2, []);
      assert w1 + w2 + [] == w1 + w2;
      assert TrimStart(w1 + w2) == [];
    } else {
      assert w1 + x + w2 == w1 + (x + w2);
      TrimStartSkips(w1, x + w2);
      TrimEndSkips(x, w2);
    }
  }

  /** Trimming twice is trimming once. */
  lemma TrimIdempotent(s: string)
    ensures Trim(Trim(s)) == Trim(s)
  {
    var r := Trim(s);
    assert [] + r + [] == r;
    TrimOfWrapped([], r, []);
  }

  // ---------------------------------------------------------------------
  // Decimal digits

  predicate IsDigit(c: char) {
    '0' <= c <= '9'
  }

  predicate AllDigits(s: string) {
    forall i :: 0 <= i < |s| ==> IsDigit(s[i])
  }

  function DigitChar(d: nat): (c: char)
    requires d < 10
    ensures IsDigit(c)
  {
    (d + '0' as int) as char
  }

  function DigitValue(c: char): (d: nat)
    requires IsDigit(c)
    ensures d < 10 && DigitChar(d) == c
  {
    c as int - '0' as int
  }

  /** The number a string of decimal digits denotes (leading zeros allowed). */
  function DigitsValue(s: string): nat
    requires AllDigits(s)
    decreases |s|
  {
    if s == [] then 0 else DigitsValue(s[..|s| - 1]) * 10 + DigitValue(s[|s| - 1])
  }

  function Pow10(k: nat): (p: nat)
    ensures p >= 1
  {
    if k == 0 then 1 else 10 * Pow10(k - 1)
  }

  /** A canonical decimal numeral: digits only, no superfluous leading zero. */
  predicate IsNumeral(s: string) {
    |s| >= 1 && AllDigits(s) && (s[0] == '0' ==> |s| == 1)
  }

  /** `n.toString()` for a non-negative integer. */
  function NatToString(n: nat): (r: string)
    ensures IsNumeral(r)
    ensures DigitsValue(r) == n
    decreases n
  {
    if n < 10 then [DigitChar(n)]
    else
      var r := NatToString(n / 10) + [DigitChar(n % 10)];
      assert r[..|r| - 1] == NatToString(n / 10);
      r
  }

  /** The rendering is exactly `k + 1` digits long on `[10^k, 10^(k+1))`. */
  lemma {:induction false} NatToStringLength(n: nat, k: nat)
    requires k > 0
    ensures |NatToString(n)| > k <==> n >= Pow10(k)
    decreases n
  {
    assert Pow10(k) == 10 * Pow10(k - 1);
    if n < 10 {
      assert Pow10(k) >= 10;
    } else if k > 1 {
      NatToStringLength(n / 10, k - 1);
      DivBound(n, Pow10(k - 1));
    }
  }

  /** Every canonical numeral is the rendering of the number it denotes:
      together with `NatToString`'s own contract, rendering and reading are
      mutually inverse. */
  lemma {:induction false} NatToStringOfValue(s: string)
    requires IsNumeral(s)
    ensures NatToString(DigitsValue(s)) == s
    decreases |s|
  {
    if |s| > 1 {
      var init := s[..|s| - 1];
      assert init[0] == s[0];
      NatToStringOfValue(init);
      var n := DigitsValue(s);
      assert n / 10 == DigitsValue(init) && n % 10 == DigitValue(s[|s| - 1]);
      assert s == init + [s[|s| - 1]];
    }
  }

  /** Leading zeros do not change the value of a digit string. */
  lemma {:induction false} LeadingZerosValue(z: string, s: string)
    requires forall i :: 0 <= i < |z| ==> z[i] == '0'
    requires AllDigits(s)
    ensures AllDigits(z + s) && DigitsValue(z + s) == DigitsValue(s)
    decreases |s|
  {
    assert AllDigits(z + s);
    if s == [] {
      assert z + s == z;
      ZerosValue(z);
    } else {
      var s' := s[..|s| - 1];
      assert (z + s)[..|z + s| - 1] == z + s';
      LeadingZerosValue(z, s');
    }
  }

  lemma {:induction false} ZerosValue(z: string)
    requires forall i :: 0 <= i < |z| ==> z[i] == '0'
    ensures AllDigits(z) && DigitsValue(z) == 0
    decreases |z|
  {
    if z != [] {
      ZerosValue(z[..|z| - 1]);
    }
  }

  /** The last `k` digits of a digit string denote its value modulo `10^k`. */
  lemma {:induction false} SuffixDigitsValue(s: string, k: nat)
    requires AllDigits(s) && k <= |s|
    ensures DigitsValue(s[|s| - k..]) == DigitsValue(s) % Pow10(k)
    decreases k
  {
    if k == 0 {
      assert s[|s|..] == [];
    } else {
      var init := s[..|s| - 1];
      var d := DigitValue(s[|s| - 1]);
      SuffixDigitsValue(init, k - 1);
      var suffix := s[|s| - k..];
      assert suffix[..|suffix| - 1] == init[|init| - (k - 1)..];
      var a := DigitsValue(init);
      var m := Pow10(k - 1);
      ModShift(a, d, m);
    }
  }

  /** (10a + d) mod 10m == 10 (a mod m) + d for a digit d. */
  lemma ModShift(a: nat, d: nat, m: nat)
    requires d < 10 && m >= 1
    ensures (a * 10 + d) % (10 * m) == (a % m) * 10 + d
  {
    var q := a / m;
    var r := a % m;
    assert a == q * m + r;
    assert a * 10 == q * (10 * m) + r * 10;
    assert r + 1 <= m;
    assert r * 10 + 10 <= m * 10;
    ModOfDecomposition(a * 10 + d, q, 10 * m, r * 10 + d);
  }

  /** Euclidean division is unique: a remainder in range is the remainder. */
  lemma ModOfDecomposition(x: int, q: int, m: int, r: int)
    requires m > 0 && 0 <= r < m && x == q * m + r
    ensures x % m == r
  {
    var q' := x / m;
    var r' := x % m;
    assert q * m + r == q' * m + r';
    if q > q' {
      MulAtLeast(q - q', m);
    } else if q < q' {
      MulAtLeast(q' - q, m);
    }
  }

  lemma {:induction false} MulAtLeast(a: int, m: int)
    requires a >= 1 && m >= 0
    ensures a * m >= m
    decreases a
  {
    if a > 1 {
      MulAtLeast(a - 1, m);
      assert a * m == (a - 1) * m + m;
    }
  }

  /** n >= 10 p exactly when n / 10 >= p. */
  lemma DivBound(n: nat, p: nat)
    ensures n / 10 >= p <==> n >= 10 * p
  {
  }

  // ---------------------------------------------------------------------
  // Slicing, padding, case and search

  /** `s.slice(-k)` for k > 0: the last `k` characters, or all of `s` when
      it is shorter. (`slice(-0)` would be the whole string.) */
  function TakeLast(s: string, k: nat): (r: string)
    requires k > 0
    ensures |r| == if |s| <= k then |s| else k
    ensures r == s[|s| - |r|..]
  {
    if |s| <= k then s else s[|s| - k..]
  }

  /** `s.padStart(width, fill)`. */
  function PadStart(s: string, width: nat, fill: char): (r: string)
    ensures |r| == if |s| >= width then |s| else width
    ensures r[|r| - |s|..] == s
    ensures forall i :: 0 <= i < |r| - |s| ==> r[i] == fill
  {
    if |s| >= width then s else seq(width - |s|, _ => fill) + s
  }

  /** `toLowerCase` on one character (ASCII letters only). */
  function LowerChar(c: char): char {
    if 'A' <= c <= 'Z' then (c as int + 32) as char else c
  }

  /** `s.toLowerCase()`: the same length, each character lower-cased, and
      no upper-case ASCII letter left. */
  function ToLower(s: string): (r: string)
    ensures |r| == |s|
    ensures forall i :: 0 <= i < |s| ==> r[i] == LowerChar(s[i])
    ensures forall i :: 0 <= i < |r| ==> !('A' <= r[i] <= 'Z')
  {
    seq(|s|, i requires 0 <= i < |s| => LowerChar(s[i]))
  }

  lemma ToLowerIdempotent(s: string)
    ensures ToLower(ToLower(s)) == ToLower(s)
  {
  }

  /** `q` occurs in `s` starting at index `i`. */
  predicate OccursAt(q: string, s: string, i: int) {
    0 <= i && i + |q| <= |s| && s[i..i + |q|] == q
  }

  /** An occurrence past index 0 is an occurrence in the tail. */
  lemma OccursInTail(q: string, s: string)
    requires s != []
    ensures forall i :: OccursAt(q, s, i) && i != 0 ==> OccursAt(q, s[1..], i - 1)
  {
    forall i | OccursAt(q, s, i) && i != 0
      ensures OccursAt(q, s[1..], i - 1)
    {
      assert s[1..][i - 1..i - 1 + |q|] == s[i..i + |q|];
    }
  }

  /** `s.includes(q)`: `q` occurs somewhere in `s`; the empty string occurs
      everywhere. */
  function Includes(s: string, q: string): (r: bool)
    ensures r <==> exists i :: OccursAt(q, s, i)
    ensures q == [] ==> r
    decreases |s|
  {
    if |q| > |s| then false
    else if s[..|q|] == q then
      assert OccursAt(q, s, 0);
      true
    else if s == [] then false
    else
      var r := Includes(s[1..], q);
      if r then
        var i :| OccursAt(q, s[1..], i);
        assert OccursAt(q, s, i + 1);
        true
      else
        OccursInTail(q, s);
        false
  }
}
